=== FILE: README.md ===
# Control-tower simulation: a Dafny model

This project models the game logic of a small air-traffic control game (a
PySide6 window, `TowerSim`, in `2.py`). Aircraft enter at the edges of an
800 x 700 radar. On every 50 ms tick they burn fuel and fly on. A plane crashes
when it runs dry or flies below 100 m, and it leaves the game when it drifts
more than 100 pixels outside the radar. The operator selects a plane and turns
it, makes it climb or descend, or tries to land it in the 40-pixel zone at the
centre, which scores 10 points. If two active planes come within 30 pixels and
300 m of altitude of each other, the game ends.

Modules:

- `Options` (`options.dfy`): the optional value used for `Optional[...]` fields.
- `Geometry` (`geometry.dfy`): squared distances, and Python's float `% 360`
  as `Mod360`, with lemmas that characterise it and show that two turns
  compose into one.
- `Aircraft` (`aircraft.dfy`): the `PlaneModel` record, its constructor
  defaults, and the four-way status classification that picks the marker
  colour. `etienne.py` declares the same record and the same branch, so this
  module is the single definition for both files.
- `Tower` (`tower.dfy`): the class `SimulationState` with the fields the
  window mutates: `planes` (the list, as a `seq` of plane values), `score` and
  `selectedId`. Its methods are the tick, the three commands, removal,
  selection and spawning. Beside the class are the pure definitions that
  specify them: the per-plane step, the queued departures, the collision order,
  list removal, the selected-plane lookup and the spawn acceptance rule.

Modelling choices:

- Plane records are values. Python's `list.remove(model)` on a dataclass
  removes the first element that is equal field by field. `RemoveFirst`
  removes the first equal value, which is the same thing. The source's timers
  hold the plane object itself (2.py:298, 2.py:359), so a deferred removal
  finds the plane as it is when the removal fires. A driver of the model must
  therefore pass the value the plane has at that moment, looked up by its
  position in `planes`, and not a value saved earlier: a command applied in
  between (a turn, a climb, a second landing) changes the plane, and a stale
  value would no longer be found.
- Floats are mathematical reals, so rounding is not modelled. Distances are
  compared squared against squared thresholds: < 900 for a collision, <= 1600
  for a landing and > 6400 for spawn separation. This is equivalent to
  comparing `math.hypot` against 30, 40 and 80.
- The motion step takes `dir`, a function giving the cosine and sine of a
  heading. The speed conversion `speed / 3.6 / (0.03 * 1000)` and the time step
  0.05 s are kept.
- Random draws are inputs: the spawn edge, the draw of each spawn attempt (a
  position along the edge and a heading), the callsign, the speed, the
  altitude, the fuel and the id. `SpawnPlane` requires the speed, altitude,
  fuel and id to lie in the ranges the source draws them from (2.py:216-219,
  etienne.py:44). The per-attempt draws of position and heading and the
  callsign are unconstrained: `Place` states what follows when a draw is in
  range, and the callsign format (2.py:194-195) is not modelled.
- A timer's deferred removal is an explicit call. `Tick` returns the planes that
  crashed during the pass, with their values at the crash; each is owed a
  later `RemovePlane(m, true)` (2.py:247, 2.py:253, 2.py:298), called with
  the plane's value at that later moment. A landing is followed later by
  `RemovePlane(m, false)` (2.py:359).
- `Tick` returns the first colliding pair, if there is one. The game-over
  reaction (dialog, stopping timers, closing the window) is not modelled.
- The class invariant `Valid()` says the score is non-negative and every plane
  is within its ranges: heading in [0, 360), speed, altitude and fuel
  non-negative, fuel at most 100. Every operation preserves it.

The model follows the code as written, including:

- The commands do not check whether the selected plane is landed or crashed
  (2.py:336-362). A landed plane can be landed again for another 10 points,
  and a crashed plane near the centre can be landed too.
- A refused landing shows one message for both causes (2.py:360-362).
- The fuel-out test is `fuel <= 0` after the burn, and the fuel is then set
  to 0 (2.py:243-245).
- The spawn loop stops at the latest on its eleventh attempt, because the
  counter is tested with `attempt > 10` after it is incremented (2.py:204,
  2.py:213).
- In `update_simulation`, `continue` moves on to the next plane
  (2.py:239, 2.py:248, 2.py:254).

## Model

| member | source | states |
|---|---|---|
| Geometry.Mod360 | 2.py:339 | the normalised heading lies in [0, 360) and differs from the input by whole turns, as Python's float `% 360` |
| Geometry.Mod360OfNormalised | 2.py:220 | normalising a heading already in [0, 360) leaves it unchanged |
| Geometry.TurnTwice | 2.py:336-341 | turning by d1 and then by d2 gives the same heading as one turn by d1 + d2 |
| Geometry.SqDist | 2.py:353 | the squared distance used for every threshold test is non-negative |
| Aircraft.NewPlane | etienne.py:32-44 | a new record is not landed, not crashed and has no emergency; its id is in [1000, 9999]; every other field is the given one |
| Aircraft.StatusOf | 2.py:61-69 | landed whenever `landed` is set; crashed iff crashed and not landed; caution iff neither flag is set and fuel < 10 or an emergency is set; normal otherwise |
| Aircraft.StatusIgnoresFlightData | etienne.py:57-65 | the classification depends only on the two flags, the fuel and the emergency |
| Aircraft.FreshPlaneStatus | etienne.py:32-65 | a freshly built plane is caution when its fuel is below 10 and normal otherwise |
| Tower.StepPlane | 2.py:237-269 | a plane is queued for removal only when it flies on and ends out of the field |
| Tower.StepKeepsWellFormed | 2.py:241-260 | one plane's tick keeps it within its ranges and never adds fuel |
| Tower.StepPlaneBehaviour | 2.py:238-269 | landed or crashed planes are untouched. Otherwise fuel drops by 0.002 * speed / 400, clamped at 0. Running dry crashes the plane with the fuel reason. Failing that, altitude < 100 crashes it with the ground reason. Crashed planes do not move. A plane that flies on moves by its displacement, keeps its emergency, and is queued iff it is out of the field. A crash is scheduled for removal iff an active plane goes down. Nothing but fuel, position, crash flag and emergency changes |
| Tower.Advance | 2.py:237-266 | the pass yields one plane per plane, in list order, and landed and crashed planes come out unchanged |
| Tower.Departed | 2.py:267-269 | the queued planes are active, out of the field, and at most as many as the planes |
| Tower.DepartedComplete | 2.py:267-269 | every plane that flies on and ends out of the field is queued |
| Tower.DepartedCountsAll | 2.py:267-269 | an active plane out of the field occurs in the queue exactly as often as in the moved list |
| Tower.NoneLeftOutOfField | 2.py:267-282 | after the queued removals, no active plane in the list is out of the field |
| Tower.DepartedAreAdvanced | 2.py:262-269 | every queued plane is one of the planes the pass produced |
| Tower.DepartedRemoval | 2.py:281-282 | applying the queued removals takes exactly the queued planes out of the list and keeps every other plane |
| Tower.CrashedInPass | 2.py:243-254 | the list of planes that crashed in a pass is no longer than the list of planes |
| Tower.CrashedInPassComplete | 2.py:243-254 | every plane that goes down in the pass, for lack of fuel or below 100 m, is listed for its penalised removal |
| Tower.CrashedInPassAreAdvanced | 2.py:243-254 | every plane scheduled after a crash is one of the planes the pass produced |
| Tower.CrashedInPassReasons | 2.py:243-254 | every plane scheduled after a crash is crashed, not landed and carries a crash reason, so it is never also queued as out of the field |
| Tower.FieldBounds | 2.py:267-268 | a plane stays in the field exactly while -100 <= x <= 900 and -100 <= y <= 800: the 800 x 700 radar widened by 100 on each side |
| Tower.ConflictSymmetric | 2.py:275-277 | the collision test (both planes active, distance < 30, altitude gap < 300) does not depend on the order of the pair |
| Tower.LandingZoneOnRadar | 2.py:353-354 | a plane that may land (distance <= 40 from (400, 350), altitude <= 800) lies in [360, 440] x [310, 390], so it is never out of the field |
| Tower.FirstConflictUnique | 2.py:272-279 | the collision scan can stop at only one pair |
| Tower.RemoveFirst | 2.py:370-373 | removing an absent plane leaves the list unchanged; removing a present one shortens it by one |
| Tower.RemoveFirstAt | 2.py:371 | the first element equal to the plane goes, and the order of the others is kept |
| Tower.RemoveFirstMultiset | 2.py:371 | exactly one copy of the plane goes and nothing else |
| Tower.RemoveAll | 2.py:281-282 | removing each of k planes in turn shortens the list by at most k and never lengthens it |
| Tower.RemoveAllMultiset | 2.py:281-282 | removing each queued plane in turn takes exactly the queued copies away |
| Tower.Deselected | 2.py:379-380 | after a series of removals the selection is cleared iff one removed plane had the selected id, and is unchanged otherwise |
| Tower.IndexOfId | 2.py:337 | the lookup returns the first plane with the selected id, or nothing when no plane has it or nothing is selected |
| Tower.Place | 2.py:205-212 | a spawn candidate lies outside the radar, and for draws in the source's ranges it is not beyond the removal margin |
| Tower.SpawnAcceptedUnique | 2.py:203-214 | for given draws the retry loop has exactly one stopping attempt |
| Tower.SpawnAcceptedExists | 2.py:203-214 | for any draws the retry loop stops at some attempt among the first eleven |
| Tower.ClearSpawnNoConflict | 2.py:213 | a spawn point farther than 80 from every plane puts the new plane in conflict with none of them, since 80 > 30 |
| Tower.SimulationState.constructor | 2.py:114-117 | a new session has no planes, score 0 and no selection |
| Tower.SimulationState.SelectPlane | 2.py:315-316 | selection records the id and changes nothing else |
| Tower.SimulationState.ChangeHeading | 2.py:336-341 | the selected plane's heading becomes (h + delta) mod 360 and nothing else changes; with no plane of the selected id nothing changes |
| Tower.SimulationState.ChangeAltitude | 2.py:343-347 | the selected plane's altitude becomes max(0, altitude + delta) and nothing else changes; with no plane of the selected id nothing changes |
| Tower.SimulationState.TryLand | 2.py:349-362 | succeeds iff the selected plane is within 40 of (400, 350) and at most 800 m high, whatever its flags. On success it is landed with speed 0 and the score rises by 10. On refusal nothing changes. With no selected plane nothing changes |
| Tower.SimulationState.RemovePlane | 2.py:364-381 | the score loses 1, floored at 0, exactly when penalised, even if the plane is gone. The first equal plane leaves the list. The selection is cleared iff it held the plane's id |
| Tower.SimulationState.FindCollision | 2.py:271-279 | returns the first conflicting pair i < j in scan order, skipping landed and crashed planes, or reports that no pair conflicts |
| Tower.SimulationState.FlyAll | 2.py:237-269 | after the per-plane pass, every plane is its stepped value; the queue holds the departed planes and the second result the crashed planes, both in list order |
| Tower.SimulationState.RemoveEach | 2.py:281-282 | queued planes are removed in order without penalty, and the selection is cleared if one of them was selected |
| Tower.SimulationState.Tick | 2.py:233-282 | on a collision the tick reports the first pair and leaves the moved planes without applying the queued removals. Otherwise no pair conflicts, exactly the queued planes are removed, and no active plane is left out of the field. In both cases it returns the planes that crashed in the pass, each owed a penalised removal. The score never changes |
| Tower.SimulationState.PickSpawnPoint | 2.py:202-214 | between 1 and 11 attempts are made; every earlier candidate was within 80 of some plane; the accepted one is clear of all planes or is the eleventh |
| Tower.SimulationState.SpawnPlane | 2.py:198-221 | the new plane, with its heading normalised to [0, 360) and default flags, is appended at the accepted spawn point; score and selection are unchanged |

## Left out

- Qt presentation code is not modelled: the scene, grid, markers, colours and transforms, the widgets and buttons, the text of the list and the info label, the status bar, the message boxes, `end_game`, `end_game_forced` and `main`. These are calls into a GUI library.
- Timers are not modelled: the 50 ms tick, the 8 s spawn period, and the 5 s and 1 s delays before a deferred removal. A deferred removal is an explicit `RemovePlane` call made by whoever drives the model.
- `handle_collision` is not modelled beyond `Tick` returning the pair; the session-ending dialog and closing are presentation.
- `_generate_callsign` and every `random` draw are inputs. The chance that the spawn retries find a clear point is not modelled.
- `math.cos`, `math.sin` and `math.radians` of the motion step are the `dir` input.
- IEEE float rounding is not modelled, including a float `% 360` that can round up to 360.0.
- `TowerSim.__init__` spawns two planes. Here they are two `SpawnPlane` calls after the constructor.
- `list_item_clicked` routes a click on a list row to `select_plane` and is left out; `SelectPlane` is that call.
- `scene_selection_changed` (2.py:308-313) is left out. It runs whenever the scene's selection changes. That includes a marker being clicked, and a selected marker being taken out of the scene by `remove_plane` (2.py:369, connected at 2.py:181). It then selects the plane of the first marker still selected in the scene, or clears the selection. The scene's own selection of markers is Qt state and is not part of the model.
- Tower.SimulationState.RemovePlane: keeps only the id rule of 2.py:379-380 for the selection, and ignores the reselection that the scene signal triggers when the removed marker was selected in the scene. For example, marker A is selected in the scene, then plane B is chosen from the list, then A is removed. The source ends with no selection; the model keeps B's id.
- Tower.SimulationState.RemoveEach: inherits the same gap for each queued removal. Its selection follows only the id rule of 2.py:379-380 (`Deselected`), not the reselection that the scene signal triggers.
- Tower.SimulationState.Tick: inherits the same gap on the path without a collision, where the queued removals run. Its selection follows only the id rule of 2.py:379-380, not the reselection that the scene signal triggers.
- Ids are drawn at random in the source and are not guaranteed unique. The model does not assume they are.
- The per-plane branch of `update_simulation` is the function `StepPlane`, called from the loop of `FlyAll`, not statements repeated in the loop body. The loop replaces each list entry by its stepped value and appends to the removal queue, as the source does. It works on a local copy of the list that is stored back into the state once, after the loop; nothing else reads the list in between, so no one can observe the difference.

=== FILE: aircraft.dfy ===
/**
 * The aircraft record (`PlaneModel`) and the four-way status classification
 * that the radar marker's colour is chosen from (`PlaneItem.update_visual`).
 * Both source files of the game declare the same record and the same branch,
 * so this module is the one definition of both.
 */
module Aircraft {
  import opened Options

  /** Smallest and largest id that the record's default id factory draws. */
  const MinId: int := 1000
  const MaxId: int := 9999

  /** Fuel level (percent) under which an active plane is shown in the caution colour. */
  const LowFuel: real := 10.0

  /** The two reasons the source ever writes into `emergency`. */
  datatype Emergency = FuelExhausted | GroundImpact
  {
    /** The text the source stores for this reason. */
    function Text(): (s: string)
      ensures |s| > 0
    {
      match this
      case FuelExhausted => "Panne carburant"
      case GroundImpact => "Crash au sol"
    }
  }

  /**
   * One aircraft. Units follow the source: position in radar pixels, heading in
   * degrees, speed in km/h, altitude in metres (an integer), fuel in percent.
   */
  datatype Plane = Plane(
    callsign: string,
    x: real,
    y: real,
    heading: real,
    speed: real,
    altitude: int,
    fuel: real,
    landed: bool,
    emergency: Option<Emergency>,
    crashed: bool,
    id: int)

  /**
   * The record's constructor with its defaults: not landed, not crashed, no
   * emergency; the id is the value the default factory drew from [1000, 9999].
   */
  function NewPlane(callsign: string, x: real, y: real, heading: real, speed: real,
                    altitude: int, fuel: real, id: int): (p: Plane)
    requires MinId <= id <= MaxId
    ensures !p.landed && !p.crashed && p.emergency == None
    ensures MinId <= p.id <= MaxId
    ensures p.callsign == callsign && p.x == x && p.y == y && p.heading == heading
    ensures p.speed == speed && p.altitude == altitude && p.fuel == fuel && p.id == id
  {
    Plane(callsign, x, y, heading, speed, altitude, fuel, false, None, false, id)
  }

  /** Status categories; each is drawn in its own colour on the radar. */
  datatype Status = Landed | Crashed | Caution | Normal

  /**
   * The if/elif chain of the marker's colour choice. `landed` wins over
   * everything, `crashed` over fuel and emergency; an emergency counts when it is
   * set (both texts are non-empty, so Python's truthiness is "is set").
   */
  function StatusOf(p: Plane): (s: Status)
    ensures s == Landed <==> p.landed
    ensures s == Crashed <==> !p.landed && p.crashed
    ensures s == Caution <==> !p.landed && !p.crashed && (p.fuel < LowFuel || p.emergency.Some?)
    ensures s == Normal <==> !p.landed && !p.crashed && p.fuel >= LowFuel && p.emergency.None?
  {
    if p.landed then Landed
    else if p.crashed then Crashed
    else if p.fuel < LowFuel || (p.emergency.Some? && |p.emergency.value.Text()| > 0) then Caution
    else Normal
  }

  /**
   * The classification reads only the two flags, the fuel and the emergency:
   * position, heading, speed, altitude, callsign and id never change the colour.
   */
  lemma StatusIgnoresFlightData(p: Plane, q: Plane)
    requires p.landed == q.landed && p.crashed == q.crashed
    requires p.fuel == q.fuel && p.emergency == q.emergency
    ensures StatusOf(p) == StatusOf(q)
  {
  }

  /** A freshly built plane is classified by its fuel alone. */
  lemma FreshPlaneStatus(callsign: string, x: real, y: real, heading: real, speed: real,
                         altitude: int, fuel: real, id: int)
    requires MinId <= id <= MaxId
    ensures StatusOf(NewPlane(callsign, x, y, heading, speed, altitude, fuel, id))
            == if fuel < LowFuel then Caution else Normal
  {
  }

  /**
   * The ranges every plane of the game stays in: heading normalised, speed,
   * altitude and fuel non-negative, fuel at most 100 percent.
   */
  predicate WellFormed(p: Plane)
  {
    0.0 <= p.heading < 360.0 && p.speed >= 0.0 && p.altitude >= 0 && 0.0 <= p.fuel <= 100.0
  }
}

=== FILE: geometry.dfy ===
/**
 * Planar geometry of the radar field and heading arithmetic.
 *
 * Positions and headings are Python floats in the source; here they are
 * mathematical reals, so IEEE rounding is not modelled. Distances are compared
 * squared: for a non-negative threshold t, `hypot(dx, dy) < t` holds exactly
 * when `dx*dx + dy*dy < t*t`, so no square root is needed.
 */
module Geometry {

  /** Squared Euclidean distance between (x1, y1) and (x2, y2). */
  function SqDist(x1: real, y1: real, x2: real, y2: real): (d: real)
    ensures d >= 0.0
  {
    (x1 - x2) * (x1 - x2) + (y1 - y2) * (y1 - y2)
  }

  /** The distance from a to b is the distance from b to a. */
  lemma SqDistSymmetric(x1: real, y1: real, x2: real, y2: real)
    ensures SqDist(x1, y1, x2, y2) == SqDist(x2, y2, x1, y1)
  {
    var dx, dy := x1 - x2, y1 - y2;
    assert (x2 - x1) * (x2 - x1) == (-dx) * (-dx) == dx * dx;
    assert (y2 - y1) * (y2 - y1) == (-dy) * (-dy) == dy * dy;
  }

  /** Squares are non-negative, and a product of two positives is positive. */
  lemma ProductSigns(a: real, b: real)
    ensures a * a >= 0.0
    ensures a > 0.0 && b > 0.0 ==> a * b > 0.0
  {
  }

  /** A coordinate difference whose square is within r*r is itself within r. */
  lemma SquareWithin(d: real, r: real)
    requires r >= 0.0 && d * d <= r * r
    ensures -r <= d <= r
  {
    ProductSigns(d - r, d + r);
    ProductSigns(-d - r, r - d);
    assert (d - r) * (d + r) == d * d - r * r;
    assert (-d - r) * (r - d) == d * d - r * r;
  }

  /** True when d is a whole number of full turns (a multiple of 360 degrees). */
  predicate WholeTurns(d: real)
  {
    (d / 360.0).Floor as real == d / 360.0
  }

  /**
   * Python's float `x % 360`: the result takes the sign of the divisor, so it
   * lies in [0, 360) and differs from x by a whole number of turns.
   */
  function Mod360(x: real): (r: real)
    ensures 0.0 <= r < 360.0
    ensures WholeTurns(x - r)
  {
    var k := (x / 360.0).Floor;
    assert (360.0 * k as real) / 360.0 == k as real;
    x - 360.0 * k as real
  }

  /** Two whole numbers of turns add up to a whole number of turns. */
  lemma {:induction false} WholeTurnsAdd(a: real, b: real)
    requires WholeTurns(a) && WholeTurns(b)
    ensures WholeTurns(a + b)
  {
    var ka, kb := (a / 360.0).Floor, (b / 360.0).Floor;
    assert a / 360.0 == ka as real;
    assert b / 360.0 == kb as real;
    var q := a / 360.0 + b / 360.0;
    assert (a + b) / 360.0 == q;
    assert q == (ka + kb) as real;
    assert q.Floor == ka + kb;
  }

  lemma {:induction false} WholeTurnsNeg(a: real)
    requires WholeTurns(a)
    ensures WholeTurns(-a)
  {
    var k := (a / 360.0).Floor;
    var q := 0.0 - a / 360.0;
    assert (0.0 - a) / 360.0 == q;
    assert q == (0 - k) as real;
    assert q.Floor == 0 - k;
  }

  /** Mod360 is characterised by its two properties: range and congruence. */
  lemma {:induction false} Mod360Unique(x: real, r: real)
    requires 0.0 <= r < 360.0
    requires WholeTurns(x - r)
    ensures Mod360(x) == r
  {
  }

  /** Headings that differ by whole turns normalise to the same value. */
  lemma {:induction false} Mod360Congruent(x: real, y: real)
    requires WholeTurns(x - y)
    ensures Mod360(x) == Mod360(y)
  {
    var r := Mod360(y);
    WholeTurnsAdd(x - y, y - r);
    assert x - r == (x - y) + (y - r);
    Mod360Unique(x, r);
  }

  /** Normalising an already normalised heading changes nothing. */
  lemma {:induction false} Mod360OfNormalised(h: real)
    requires 0.0 <= h < 360.0
    ensures Mod360(h) == h
  {
  }

  /** Two successive turns by d1 and d2 end on the heading of one turn by d1 + d2. */
  lemma {:induction false} TurnTwice(h: real, d1: real, d2: real)
    ensures Mod360(Mod360(h + d1) + d2) == Mod360(h + (d1 + d2))
  {
    var a := Mod360(h + d1);
    WholeTurnsNeg(h + d1 - a);
    assert (a + d2) - (h + (d1 + d2)) == -(h + d1 - a);
    Mod360Congruent(a + d2, h + (d1 + d2));
  }
}

=== FILE: options.dfy ===
/** The optional value used for Python's `Optional[...]` fields and for lookups that may fail. */
module Options {
  datatype Option<+T> = None | Some(value: T)
}

=== FILE: tower.dfy ===
/**
 * The control tower's simulation state and its operations: the per-tick
 * update (fuel, crashes, motion, departures, collision scan), the operator
 * commands (turn, climb/descend, land), removal with its score penalty, and
 * spawning at a field edge with a bounded separation retry.
 *
 * The radar field is 800 x 700 pixels; one pixel stands for 30 metres.
 */
module Tower {
  import opened Options
  import opened Geometry
  import opened Aircraft

  // ---------------------------------------------------------------------------
  // Configuration constants of the game.

  const RadarW: real := 800.0
  const RadarH: real := 700.0
  const UpdateIntervalMs: int := 50
  const SafeDistance: real := 30.0
  const AltitudeSafeDiff: int := 300
  const LandingZoneRadius: real := 40.0
  const FuelPerTick: real := 0.002
  const PixelToKm: real := 0.03

  /** Seconds per tick. */
  const Dt: real := UpdateIntervalMs as real / 1000.0
  /** Speed (km/h) at which a tick burns exactly FuelPerTick percent. */
  const ReferenceSpeed: real := 400.0
  /** Below this altitude (metres) an active plane hits the ground. */
  const GroundLevel: int := 100
  /** How far (pixels) beyond the radar a plane may go before it leaves the game. */
  const FieldMargin: real := 100.0
  /** Highest altitude (metres) from which a landing is accepted. */
  const MaxLandingAltitude: int := 800
  const LandingBonus: int := 10
  const LandingX: real := RadarW / 2.0
  const LandingY: real := RadarH / 2.0
  /** Distance (pixels) outside the radar edge at which new planes appear. */
  const SpawnMargin: real := 10.0
  /** Separation (pixels) a spawn point should keep from every plane. */
  const SpawnSeparation: real := 80.0
  /** The first attempt plus ten retries. */
  const MaxSpawnAttempts: nat := 11

  // ---------------------------------------------------------------------------
  // Thresholds and per-plane physics.

  predicate Active(p: Plane)
  {
    !p.landed && !p.crashed
  }

  /** Percent of fuel one tick burns at the given speed. */
  function Burn(speed: real): (b: real)
  {
    FuelPerTick * (speed / ReferenceSpeed)
  }

  /** Speed converted from km/h to pixels per second. */
  function PixelsPerSecond(speed: real): (v: real)
  {
    (speed / 3.6) / (PixelToKm * 1000.0)
  }

  /**
   * How far a plane flying on moves during one tick, along x and along y.
   * `dir` gives the (cosine, sine) of a heading in degrees: the trigonometry
   * is an input to the model.
   */
  function Displacement(p: Plane, dir: real -> (real, real)): (d: (real, real))
  {
    var v := PixelsPerSecond(p.speed);
    var d := dir(p.heading);
    (d.0 * v * Dt, d.1 * v * Dt)
  }

  /** Beyond the radar by more than the margin on some side. */
  predicate OutOfField(x: real, y: real)
  {
    x < -FieldMargin || x > RadarW + FieldMargin || y < -FieldMargin || y > RadarH + FieldMargin
  }

  function AltitudeGap(a: int, b: int): (g: nat)
  {
    if a < b then b - a else a - b
  }

  /** Two active planes closer than 30 pixels and less than 300 m apart in altitude. */
  predicate Conflict(a: Plane, b: Plane)
  {
    Active(a) && Active(b)
    && SqDist(a.x, a.y, b.x, b.y) < SafeDistance * SafeDistance
    && AltitudeGap(a.altitude, b.altitude) < AltitudeSafeDiff
  }

  /** Within 40 pixels of the landing centre and at most 800 m high. */
  predicate CanLand(p: Plane)
  {
    SqDist(p.x, p.y, LandingX, LandingY) <= LandingZoneRadius * LandingZoneRadius
    && p.altitude <= MaxLandingAltitude
  }

  /**
   * The field a plane may fly in is the 800 x 700 radar widened by 100 pixels
   * on every side; outside it the plane is queued for removal.
   */
  lemma FieldBounds(x: real, y: real)
    ensures !OutOfField(x, y) <==> -100.0 <= x <= 900.0 && -100.0 <= y <= 800.0
  {
  }

  /** The collision test does not depend on which of the two planes comes first. */
  lemma ConflictSymmetric(a: Plane, b: Plane)
    ensures Conflict(a, b) <==> Conflict(b, a)
  {
    SqDistSymmetric(a.x, a.y, b.x, b.y);
  }

  /**
   * A plane that may land lies within 40 pixels of (400, 350) along each axis,
   * so it is on the radar and never queued as out of the field.
   */
  lemma LandingZoneOnRadar(p: Plane)
    requires CanLand(p)
    ensures 360.0 <= p.x <= 440.0 && 310.0 <= p.y <= 390.0
    ensures !OutOfField(p.x, p.y)
  {
    var dx, dy := p.x - LandingX, p.y - LandingY;
    assert SqDist(p.x, p.y, LandingX, LandingY) == dx * dx + dy * dy;
    ProductSigns(dx, dx);
    ProductSigns(dy, dy);
    assert dx * dx <= LandingZoneRadius * LandingZoneRadius;
    assert dy * dy <= LandingZoneRadius * LandingZoneRadius;
    SquareWithin(dx, LandingZoneRadius);
    SquareWithin(dy, LandingZoneRadius);
  }

  /**
   * A plane after one tick; whether it was queued for removal as out of the
   * field; and whether it crashed this tick, which schedules a penalised removal.
   */
  datatype Step = Step(plane: Plane, departed: bool, scheduled: bool)

  /** One plane's part of the tick; its behaviour is stated by StepPlaneBehaviour. */
  function StepPlane(p: Plane, dir: real -> (real, real)): (s: Step)
    // it is queued for removal only when it flies on and is out of the field
    ensures s.departed ==> Active(s.plane) && OutOfField(s.plane.x, s.plane.y)
  {
    if !Active(p) then Step(p, false, false)
    else
      var fuel := p.fuel - Burn(p.speed);
      if fuel <= 0.0 then
        Step(p.(fuel := 0.0, emergency := Some(FuelExhausted), crashed := true), false, true)
      else if p.altitude < GroundLevel then
        Step(p.(fuel := fuel, crashed := true, emergency := Some(GroundImpact)), false, true)
      else
        var q := p.(fuel := fuel, x := p.x + Displacement(p, dir).0, y := p.y + Displacement(p, dir).1);
        Step(q, OutOfField(q.x, q.y), false)
  }

  /** The tick keeps a plane within its ranges and never adds fuel. */
  lemma StepKeepsWellFormed(p: Plane, dir: real -> (real, real))
    requires WellFormed(p)
    ensures WellFormed(StepPlane(p, dir).plane) && StepPlane(p, dir).plane.fuel <= p.fuel
  {
  }

  /** What one tick does to one plane. */
  lemma StepPlaneBehaviour(p: Plane, dir: real -> (real, real))
    // landed and crashed planes are skipped
    ensures !Active(p) ==> StepPlane(p, dir) == Step(p, false, false)
    // only fuel, position, the crash flag and the emergency ever change
    ensures var q := StepPlane(p, dir).plane;
            q.(fuel := p.fuel, x := p.x, y := p.y, crashed := p.crashed, emergency := p.emergency) == p
    // fuel is burnt in proportion to speed and never drops below zero
    ensures Active(p) ==> StepPlane(p, dir).plane.fuel
                          == if p.fuel - Burn(p.speed) <= 0.0 then 0.0 else p.fuel - Burn(p.speed)
    // running dry comes first, hitting the ground second
    ensures Active(p) && p.fuel - Burn(p.speed) <= 0.0 ==>
              StepPlane(p, dir).plane.crashed && StepPlane(p, dir).plane.emergency == Some(FuelExhausted)
    ensures Active(p) && p.fuel - Burn(p.speed) > 0.0 && p.altitude < GroundLevel ==>
              StepPlane(p, dir).plane.crashed && StepPlane(p, dir).plane.emergency == Some(GroundImpact)
    ensures Active(p) && p.fuel - Burn(p.speed) > 0.0 && p.altitude >= GroundLevel ==>
              Active(StepPlane(p, dir).plane)
    // a crash is scheduled for removal exactly when an active plane goes down
    ensures StepPlane(p, dir).scheduled <==> Active(p) && !Active(StepPlane(p, dir).plane)
    // a plane that crashes or was already down does not move and is not queued
    ensures var s := StepPlane(p, dir);
            !Active(s.plane) ==> s.plane.x == p.x && s.plane.y == p.y && !s.departed
    // a plane that flies on moves by its displacement, and is queued exactly when out of the field
    ensures var s := StepPlane(p, dir);
            Active(s.plane) ==> s.plane.x == p.x + Displacement(p, dir).0 && s.plane.y == p.y + Displacement(p, dir).1
                                && (s.departed <==> OutOfField(s.plane.x, s.plane.y))
                                && s.plane.emergency == p.emergency
  {
  }

  /** All planes after the per-plane pass of a tick, in list order. */
  function Advance(ps: seq<Plane>, dir: real -> (real, real)): (r: seq<Plane>)
    ensures |r| == |ps|
    // landed and crashed planes come out of the pass as they went in
    ensures forall i :: 0 <= i < |ps| && !Active(ps[i]) ==> r[i] == ps[i]
  {
    seq(|ps|, i requires 0 <= i < |ps| => StepPlane(ps[i], dir).plane)
  }

  /** The planes queued for removal during the per-plane pass, in list order. */
  function Departed(ps: seq<Plane>, dir: real -> (real, real)): (q: seq<Plane>)
    ensures |q| <= |ps|
    ensures forall m :: m in q ==> Active(m) && OutOfField(m.x, m.y)
  {
    if ps == [] then []
    else
      var last := StepPlane(ps[|ps| - 1], dir);
      Departed(ps[..|ps| - 1], dir) + (if last.departed then [last.plane] else [])
  }

  lemma DepartedStep(ps: seq<Plane>, dir: real -> (real, real), k: nat)
    requires k < |ps|
    ensures Departed(ps[..k + 1], dir)
            == Departed(ps[..k], dir) + (if StepPlane(ps[k], dir).departed then [StepPlane(ps[k], dir).plane] else [])
  {
    assert ps[..k + 1][..k] == ps[..k];
  }

  lemma AdvanceSnoc(ps: seq<Plane>, dir: real -> (real, real))
    requires ps != []
    ensures Advance(ps, dir) == Advance(ps[..|ps| - 1], dir) + [StepPlane(ps[|ps| - 1], dir).plane]
  {
  }

  /**
   * The planes that crash during the per-plane pass, as they are after the
   * crash, in list order. Each is scheduled for a penalised removal later.
   */
  function CrashedInPass(ps: seq<Plane>, dir: real -> (real, real)): (q: seq<Plane>)
    ensures |q| <= |ps|
  {
    if ps == [] then []
    else
      var n := |ps| - 1;
      var last := StepPlane(ps[n], dir);
      CrashedInPass(ps[..n], dir) + (if last.scheduled then [last.plane] else [])
  }

  lemma CrashedInPassStep(ps: seq<Plane>, dir: real -> (real, real), k: nat)
    requires k < |ps|
    ensures CrashedInPass(ps[..k + 1], dir)
            == CrashedInPass(ps[..k], dir) + (if StepPlane(ps[k], dir).scheduled then [StepPlane(ps[k], dir).plane] else [])
  {
    assert ps[..k + 1][..k] == ps[..k];
  }

  /** Every crashed plane is one of the planes the pass produced. */
  lemma {:induction false} CrashedInPassAreAdvanced(ps: seq<Plane>, dir: real -> (real, real))
    ensures multiset(CrashedInPass(ps, dir)) <= multiset(Advance(ps, dir))
  {
    if ps != [] {
      var n := |ps| - 1;
      var last := StepPlane(ps[n], dir);
      CrashedInPassAreAdvanced(ps[..n], dir);
      AdvanceSnoc(ps, dir);
      assert multiset(Advance(ps, dir)) == multiset(Advance(ps[..n], dir)) + multiset{last.plane};
      assert CrashedInPass(ps, dir) == CrashedInPass(ps[..n], dir) + (if last.scheduled then [last.plane] else []);
    }
  }

  /**
   * Every crashed plane is down with a crash reason, so none of them is also
   * queued as out of the field.
   */
  lemma {:induction false} CrashedInPassReasons(ps: seq<Plane>, dir: real -> (real, real))
    ensures forall m :: m in CrashedInPass(ps, dir) ==> m.crashed && !m.landed && m.emergency.Some?
    ensures forall m :: m in CrashedInPass(ps, dir) ==> m !in Departed(ps, dir)
  {
    if ps != [] {
      var n := |ps| - 1;
      CrashedInPassReasons(ps[..n], dir);
      assert CrashedInPass(ps, dir) == CrashedInPass(ps[..n], dir)
        + (if StepPlane(ps[n], dir).scheduled then [StepPlane(ps[n], dir).plane] else []);
    }
  }

  /** Every plane that flies on and ends out of the field is queued. */
  lemma {:induction false} DepartedComplete(ps: seq<Plane>, dir: real -> (real, real))
    ensures forall i :: 0 <= i < |ps| && StepPlane(ps[i], dir).departed ==> StepPlane(ps[i], dir).plane in Departed(ps, dir)
  {
    if ps != [] {
      var n := |ps| - 1;
      DepartedComplete(ps[..n], dir);
      assert forall i :: 0 <= i < n ==> ps[..n][i] == ps[i];
    }
  }

  /** Every plane that goes down in the pass is listed for its penalised removal. */
  lemma {:induction false} CrashedInPassComplete(ps: seq<Plane>, dir: real -> (real, real))
    ensures forall i :: 0 <= i < |ps| && StepPlane(ps[i], dir).scheduled ==> StepPlane(ps[i], dir).plane in CrashedInPass(ps, dir)
  {
    if ps != [] {
      var n := |ps| - 1;
      CrashedInPassComplete(ps[..n], dir);
      assert forall i :: 0 <= i < n ==> ps[..n][i] == ps[i];
    }
  }

  /** An active plane out of the field occurs as often in the queue as in the moved list. */
  lemma {:induction false} DepartedCountsAll(ps: seq<Plane>, dir: real -> (real, real), m: Plane)
    requires Active(m) && OutOfField(m.x, m.y)
    ensures multiset(Departed(ps, dir))[m] == multiset(Advance(ps, dir))[m]
  {
    if ps != [] {
      var n := |ps| - 1;
      var last := StepPlane(ps[n], dir);
      DepartedCountsAll(ps[..n], dir, m);
      AdvanceSnoc(ps, dir);
      StepPlaneBehaviour(ps[n], dir);
      assert Departed(ps, dir) == Departed(ps[..n], dir) + (if last.departed then [last.plane] else []);
    }
  }

  /**
   * When no collision stops the tick, the queued removals leave no active
   * plane out of the field.
   */
  lemma NoneLeftOutOfField(ps: seq<Plane>, dir: real -> (real, real))
    ensures forall m :: m in RemoveAll(Advance(ps, dir), Departed(ps, dir)) ==> !(Active(m) && OutOfField(m.x, m.y))
  {
    forall m | Active(m) && OutOfField(m.x, m.y)
      ensures m !in RemoveAll(Advance(ps, dir), Departed(ps, dir))
    {
      DepartedCountsAll(ps, dir, m);
      DepartedRemoval(ps, dir);
    }
  }

  /** Every plane queued for removal is one of the planes the pass produced. */
  lemma {:induction false} DepartedAreAdvanced(ps: seq<Plane>, dir: real -> (real, real))
    ensures multiset(Departed(ps, dir)) <= multiset(Advance(ps, dir))
  {
    if ps != [] {
      var n := |ps| - 1;
      var last := StepPlane(ps[n], dir);
      var before, moved := Departed(ps[..n], dir), Advance(ps[..n], dir);
      DepartedAreAdvanced(ps[..n], dir);
      AdvanceSnoc(ps, dir);
      assert multiset(Advance(ps, dir)) == multiset(moved) + multiset{last.plane};
      assert Departed(ps, dir) == before + (if last.departed then [last.plane] else []);
    }
  }

  /**
   * When no collision stops the tick, applying the queued removals takes
   * exactly the queued planes out of the list and keeps every other one.
   */
  lemma {:induction false} DepartedRemoval(ps: seq<Plane>, dir: real -> (real, real))
    ensures multiset(RemoveAll(Advance(ps, dir), Departed(ps, dir)))
            == multiset(Advance(ps, dir)) - multiset(Departed(ps, dir))
    ensures |RemoveAll(Advance(ps, dir), Departed(ps, dir))| == |ps| - |Departed(ps, dir)|
  {
    var moved, gone := Advance(ps, dir), Departed(ps, dir);
    DepartedAreAdvanced(ps, dir);
    RemoveAllMultiset(moved, gone);
    assert multiset(moved) == (multiset(moved) - multiset(gone)) + multiset(gone);
    assert |multiset(RemoveAll(moved, gone))| == |multiset(moved)| - |multiset(gone)|;
  }

  /** No pair i < j of the list is in conflict. */
  predicate NoConflict(ps: seq<Plane>)
  {
    forall a, b :: 0 <= a < b < |ps| ==> !Conflict(ps[a], ps[b])
  }

  /** (i, j) is the first conflicting pair in the scan order: i ascending, then j ascending. */
  predicate FirstConflictAt(ps: seq<Plane>, i: nat, j: nat)
  {
    i < j < |ps| && Conflict(ps[i], ps[j])
    && forall a, b :: 0 <= a < b < |ps| && (a < i || (a == i && b < j)) ==> !Conflict(ps[a], ps[b])
  }

  /** The scan reports at most one pair. */
  lemma FirstConflictUnique(ps: seq<Plane>, i: nat, j: nat, i': nat, j': nat)
    requires FirstConflictAt(ps, i, j) && FirstConflictAt(ps, i', j')
    ensures i == i' && j == j'
  {
  }

  // ---------------------------------------------------------------------------
  // Lists and removal.

  /**
   * Python's `list.remove(m)` with the exception swallowed: the first element
   * equal to m goes, and a missing m leaves the list as it was.
   */
  function RemoveFirst<T(==)>(s: seq<T>, m: T): (r: seq<T>)
    ensures m !in s ==> r == s
    ensures m in s ==> |r| == |s| - 1
  {
    if s == [] then []
    else if s[0] == m then s[1..]
    else
      assert m in s ==> m in s[1..] by { assert s == [s[0]] + s[1..]; }
      [s[0]] + RemoveFirst(s[1..], m)
  }

  /** Exactly one copy of m goes, and nothing else. */
  lemma {:induction false} RemoveFirstMultiset<T>(s: seq<T>, m: T)
    ensures multiset(RemoveFirst(s, m)) == multiset(s) - multiset{m}
  {
    if s != [] {
      assert s == [s[0]] + s[1..];
      if s[0] != m {
        RemoveFirstMultiset(s[1..], m);
      }
    }
  }

  /** When m first occurs at index i, exactly that element goes and the order of the rest is kept. */
  lemma {:induction false} RemoveFirstAt<T>(s: seq<T>, m: T, i: nat)
    requires i < |s| && s[i] == m && m !in s[..i]
    ensures RemoveFirst(s, m) == s[..i] + s[i + 1..]
  {
    if i > 0 {
      assert s[0] != m by { assert s[0] == s[..i][0]; }
      assert s[1..][..i - 1] == s[..i][1..];
      RemoveFirstAt(s[1..], m, i - 1);
      assert s[1..][i - 1 + 1..] == s[i + 1..];
      assert s[..i] == [s[0]] + s[1..][..i - 1];
    }
  }

  /** Removing each element of ms in turn, first to last. */
  function RemoveAll<T(==)>(s: seq<T>, ms: seq<T>): (r: seq<T>)
    // each removal takes at most one element away
    ensures |s| - |ms| <= |r| <= |s|
  {
    if ms == [] then s
    else
      var n := |ms| - 1;
      RemoveFirst(RemoveAll(s, ms[..n]), ms[n])
  }

  /** Removing each of ms in turn takes exactly the copies in ms away. */
  lemma {:induction false} RemoveAllMultiset<T>(s: seq<T>, ms: seq<T>)
    ensures multiset(RemoveAll(s, ms)) == multiset(s) - multiset(ms)
  {
    if ms != [] {
      var n := |ms| - 1;
      assert ms == ms[..n] + [ms[n]];
      RemoveAllMultiset(s, ms[..n]);
      RemoveFirstMultiset(RemoveAll(s, ms[..n]), ms[n]);
    }
  }

  /** Removing the first j + 1 queued elements is removing the first j, then element j. */
  lemma RemoveAllStep<T>(s: seq<T>, ms: seq<T>, j: nat)
    requires j < |ms|
    ensures RemoveAll(s, ms[..j + 1]) == RemoveFirst(RemoveAll(s, ms[..j]), ms[j])
  {
    assert ms[..j + 1][..j] == ms[..j];
  }

  lemma DeselectedStep(sel: Option<int>, ms: seq<Plane>, j: nat)
    requires j < |ms|
    ensures Deselected(sel, ms[..j + 1])
            == if Deselected(sel, ms[..j]) == Some(ms[j].id) then None else Deselected(sel, ms[..j])
  {
  }

  /** The selection after removing each plane of ms in turn: cleared once one of them had the selected id. */
  function Deselected(sel: Option<int>, ms: seq<Plane>): (r: Option<int>)
    ensures r == None <==> sel == None || exists m :: m in ms && sel == Some(m.id)
    ensures r != None ==> r == sel
  {
    if ms == [] then sel
    else
      var n := |ms| - 1;
      assert ms == ms[..n] + [ms[n]];
      var before := Deselected(sel, ms[..n]);
      if before == Some(ms[n].id) then None else before
  }

  /**
   * The plane the selected id designates: the first one with that id, as
   * `next(p for p in planes if p.id == selected)` finds it.
   */
  function IndexOfId(ps: seq<Plane>, sel: Option<int>): (r: Option<nat>)
    ensures r.Some? ==> r.value < |ps| && sel == Some(ps[r.value].id)
                        && forall k :: 0 <= k < r.value ==> sel != Some(ps[k].id)
    ensures r.None? ==> forall k :: 0 <= k < |ps| ==> sel != Some(ps[k].id)
  {
    if ps == [] then None
    else if sel == Some(ps[0].id) then Some(0)
    else
      match IndexOfId(ps[1..], sel)
      case None => None
      case Some(k) => Some(k + 1)
  }

  // ---------------------------------------------------------------------------
  // Spawning.

  datatype Edge = Top | Bottom | Left | Right

  /** The two uniform draws of one spawn attempt: the position along the edge and the heading. */
  datatype Draw = Draw(along: real, turn: real)

  datatype Candidate = Candidate(x: real, y: real, heading: real)

  /**
   * The ranges the source draws from, per edge. Only the left and right cones
   * (around 0 and 180 degrees) point into the radar; the top and bottom cones
   * are centred on 180 and 0 degrees, parallel to their edge, so half of each
   * cone carries the plane further away from the radar.
   */
  predicate Drawable(edge: Edge, d: Draw)
  {
    match edge
    case Top => 0.0 <= d.along <= RadarW && 120.0 <= d.turn <= 240.0
    case Bottom => 0.0 <= d.along <= RadarW && -60.0 <= d.turn <= 60.0
    case Left => 0.0 <= d.along <= RadarH && -30.0 <= d.turn <= 30.0
    case Right => 0.0 <= d.along <= RadarH && 150.0 <= d.turn <= 210.0
  }

  /** A spawn candidate just outside the chosen edge. */
  function Place(edge: Edge, d: Draw): (c: Candidate)
    ensures Drawable(edge, d) ==> !OutOfField(c.x, c.y)
    ensures !(0.0 <= c.x <= RadarW && 0.0 <= c.y <= RadarH)
  {
    match edge
    case Top => Candidate(d.along, -SpawnMargin, d.turn)
    case Bottom => Candidate(d.along, RadarH + SpawnMargin, d.turn)
    case Left => Candidate(-SpawnMargin, d.along, d.turn)
    case Right => Candidate(RadarW + SpawnMargin, d.along, d.turn)
  }

  /** Farther than 80 pixels from every plane, landed and crashed ones included. */
  predicate Clear(ps: seq<Plane>, c: Candidate)
  {
    forall p :: p in ps ==> SqDist(p.x, p.y, c.x, c.y) > SpawnSeparation * SpawnSeparation
  }

  /**
   * Attempt n (counted from 1) is where the retry loop stops: every earlier
   * candidate was too close, and this one is clear or is the last allowed.
   */
  predicate SpawnAccepted(ps: seq<Plane>, edge: Edge, draw: nat -> Draw, n: nat)
  {
    1 <= n <= MaxSpawnAttempts
    && (Clear(ps, Place(edge, draw(n - 1))) || n == MaxSpawnAttempts)
    && forall k: nat :: k < n - 1 ==> !Clear(ps, Place(edge, draw(k)))
  }

  /** The retry loop has one stopping point for given draws. */
  lemma SpawnAcceptedUnique(ps: seq<Plane>, edge: Edge, draw: nat -> Draw, n: nat, n': nat)
    requires SpawnAccepted(ps, edge, draw, n) && SpawnAccepted(ps, edge, draw, n')
    ensures n == n'
  {
  }

  /**
   * A plane set down at a clear spawn point is more than 80 pixels from every
   * plane already in the list, so the collision scan, which meets the new
   * last plane only as the second of a pair, finds no conflict with it.
   */
  lemma ClearSpawnNoConflict(ps: seq<Plane>, c: Candidate, p: Plane)
    requires Clear(ps, c) && p.x == c.x && p.y == c.y
    ensures forall q :: q in ps ==> !Conflict(q, p)
  {
  }

  /** The retry loop always stops: some attempt among the first eleven is accepted. */
  lemma SpawnAcceptedExists(ps: seq<Plane>, edge: Edge, draw: nat -> Draw)
    ensures exists n :: SpawnAccepted(ps, edge, draw, n)
  {
    SpawnAcceptedFrom(ps, edge, draw, 1);
  }

  /** If the attempts before k all failed, some attempt from k on is accepted. */
  lemma {:induction false} SpawnAcceptedFrom(ps: seq<Plane>, edge: Edge, draw: nat -> Draw, k: nat)
    requires 1 <= k <= MaxSpawnAttempts
    requires forall j: nat :: j < k - 1 ==> !Clear(ps, Place(edge, draw(j)))
    ensures exists n :: SpawnAccepted(ps, edge, draw, n)
    decreases MaxSpawnAttempts - k
  {
    if Clear(ps, Place(edge, draw(k - 1))) || k == MaxSpawnAttempts {
      assert SpawnAccepted(ps, edge, draw, k);
    } else {
      SpawnAcceptedFrom(ps, edge, draw, k + 1);
    }
  }

  // ---------------------------------------------------------------------------
  // The session state.

  predicate AllWellFormed(ps: seq<Plane>)
  {
    forall p :: p in ps ==> WellFormed(p)
  }

  lemma UpdateKeepsWellFormed(ps: seq<Plane>, i: nat, q: Plane)
    requires AllWellFormed(ps) && i < |ps| && WellFormed(q)
    ensures AllWellFormed(ps[i := q])
  {
  }

  lemma AdvanceKeepsWellFormed(ps: seq<Plane>, dir: real -> (real, real))
    requires AllWellFormed(ps)
    ensures AllWellFormed(Advance(ps, dir))
  {
    forall i | 0 <= i < |ps| ensures WellFormed(Advance(ps, dir)[i]) {
      assert ps[i] in ps;
      StepKeepsWellFormed(ps[i], dir);
    }
  }

  lemma RemoveKeepsWellFormed(ps: seq<Plane>, m: Plane)
    requires AllWellFormed(ps)
    ensures AllWellFormed(RemoveFirst(ps, m))
  {
  }

  datatype LandingOutcome = NoTarget | Refused | Touchdown

  class SimulationState {
    var planes: seq<Plane>
    var score: int
    var selectedId: Option<int>

    ghost predicate Valid()
      reads this
    {
      score >= 0 && AllWellFormed(planes)
    }

    constructor ()
      ensures Valid() && planes == [] && score == 0 && selectedId == None
    {
      planes := [];
      score := 0;
      selectedId := None;
    }

    /** Selecting a plane (or nothing) only records its id. */
    method SelectPlane(pid: Option<int>)
      requires Valid()
      modifies this
      ensures Valid()
      ensures selectedId == pid && planes == old(planes) && score == old(score)
    {
      selectedId := pid;
    }

    /** Turn the selected plane by delta degrees, normalising to [0, 360). */
    method ChangeHeading(delta: real)
      requires Valid()
      modifies this
      ensures Valid()
      ensures score == old(score) && selectedId == old(selectedId)
      ensures match IndexOfId(old(planes), old(selectedId))
              case None => planes == old(planes)
              case Some(i) => planes == old(planes)[i := old(planes)[i].(heading := Mod360(old(planes)[i].heading + delta))]
    {
      var found := IndexOfId(planes, selectedId);
      if found.Some? {
        var i := found.value;
        var p := planes[i].(heading := Mod360(planes[i].heading + delta));
        assert planes[i] in planes;
        UpdateKeepsWellFormed(planes, i, p);
        planes := planes[i := p];
      }
    }

    /** Climb or descend the selected plane by delta metres, never below the ground. */
    method ChangeAltitude(delta: int)
      requires Valid()
      modifies this
      ensures Valid()
      ensures score == old(score) && selectedId == old(selectedId)
      ensures match IndexOfId(old(planes), old(selectedId))
              case None => planes == old(planes)
              case Some(i) =>
                var a := old(planes)[i].altitude + delta;
                planes == old(planes)[i := old(planes)[i].(altitude := if a < 0 then 0 else a)]
    {
      var found := IndexOfId(planes, selectedId);
      if found.Some? {
        var i := found.value;
        var a := planes[i].altitude + delta;
        var p := planes[i].(altitude := if a < 0 then 0 else a);
        assert planes[i] in planes;
        UpdateKeepsWellFormed(planes, i, p);
        planes := planes[i := p];
      }
    }

    /**
     * Land the selected plane if it is in the landing zone and low enough: it
     * stops and scores 10. The flags are not consulted, so a landed or crashed
     * plane can be landed (and scored) again. A refused attempt changes nothing.
     */
    method TryLand() returns (outcome: LandingOutcome)
      requires Valid()
      modifies this
      ensures Valid()
      ensures selectedId == old(selectedId)
      ensures match IndexOfId(old(planes), old(selectedId))
              case None => outcome == NoTarget && planes == old(planes) && score == old(score)
              case Some(i) =>
                && (outcome == Touchdown <==> CanLand(old(planes)[i]))
                && (outcome == Touchdown ==>
                      planes == old(planes)[i := old(planes)[i].(landed := true, speed := 0.0)]
                      && score == old(score) + LandingBonus)
                && (outcome != Touchdown ==> outcome == Refused && planes == old(planes) && score == old(score))
    {
      var found := IndexOfId(planes, selectedId);
      if found.None? {
        return NoTarget;
      }
      var i := found.value;
      if CanLand(planes[i]) {
        assert planes[i] in planes;
        UpdateKeepsWellFormed(planes, i, planes[i].(landed := true, speed := 0.0));
        planes := planes[i := planes[i].(landed := true, speed := 0.0)];
        score := score + LandingBonus;
        outcome := Touchdown;
      } else {
        outcome := Refused;
      }
    }

    /**
     * Remove plane m: the score first loses a point (floored at zero) when
     * penalize is set, whether or not m is still in the list; the first plane
     * equal to m leaves the list; the selection is cleared when it was m's id.
     */
    method RemovePlane(m: Plane, penalize: bool)
      requires Valid()
      modifies this
      ensures Valid()
      ensures planes == RemoveFirst(old(planes), m)
      ensures score == if penalize then (if old(score) - 1 < 0 then 0 else old(score) - 1) else old(score)
      ensures selectedId == if old(selectedId) == Some(m.id) then None else old(selectedId)
    {
      if penalize {
        score := if score - 1 < 0 then 0 else score - 1;
      }
      RemoveKeepsWellFormed(planes, m);
      planes := RemoveFirst(planes, m);
      if selectedId == Some(m.id) {
        selectedId := None;
      }
    }

    /** The collision scan: pairs i < j in list order, stopping at the first conflict. */
    method FindCollision() returns (hit: Option<(nat, nat)>)
      ensures hit.None? ==> NoConflict(planes)
      ensures hit.Some? ==> FirstConflictAt(planes, hit.value.0, hit.value.1)
    {
      var n := |planes|;
      var i := 0;
      while i < n
        invariant 0 <= i <= n
        invariant forall a, b :: 0 <= a < i && a < b < n ==> !Conflict(planes[a], planes[b])
      {
        var j := i + 1;
        while j < n
          invariant i + 1 <= j <= n
          invariant forall b :: i < b < j ==> !Conflict(planes[i], planes[b])
        {
          if Conflict(planes[i], planes[j]) {
            return Some((i, j));
          }
          j := j + 1;
        }
        i := i + 1;
      }
      return None;
    }

    /**
     * One tick. Every active plane burns fuel, may crash (fuel first, then
     * ground), or moves and may be queued for removal when out of the field.
     * Then the collision scan runs; on a conflict the tick ends at once and the
     * queued removals are dropped. Otherwise they are applied without penalty.
     * The planes that crashed during the pass are returned in either case: each
     * is owed a penalised removal, which the driver makes later.
     */
    method Tick(dir: real -> (real, real)) returns (hit: Option<(nat, nat)>, crashed: seq<Plane>)
      requires Valid()
      modifies this
      ensures Valid()
      ensures score == old(score)
      ensures crashed == CrashedInPass(old(planes), dir)
      ensures hit.Some? ==> FirstConflictAt(Advance(old(planes), dir), hit.value.0, hit.value.1)
                            && planes == Advance(old(planes), dir) && selectedId == old(selectedId)
      ensures hit.None? ==> NoConflict(Advance(old(planes), dir))
                            && planes == RemoveAll(Advance(old(planes), dir), Departed(old(planes), dir))
                            && selectedId == Deselected(old(selectedId), Departed(old(planes), dir))
      // without a collision, no active plane is left out of the field
      ensures hit.None? ==> forall m :: m in planes ==> !(Active(m) && OutOfField(m.x, m.y))
    {
      NoneLeftOutOfField(planes, dir);
      var toRemove;
      toRemove, crashed := FlyAll(dir);
      hit := FindCollision();
      if hit.Some? {
        return;
      }
      RemoveEach(toRemove);
    }

    /**
     * The per-plane pass of a tick; returns the planes queued for removal.
     * Nothing is removed here: crashes only schedule a removal for later, and
     * are returned in list order.
     */
    method FlyAll(dir: real -> (real, real)) returns (toRemove: seq<Plane>, crashed: seq<Plane>)
      requires Valid()
      modifies this
      ensures Valid()
      ensures planes == Advance(old(planes), dir) && toRemove == Departed(old(planes), dir)
      ensures crashed == CrashedInPass(old(planes), dir)
      ensures score == old(score) && selectedId == old(selectedId)
    {
      ghost var orig := planes;
      var ps := planes;
      toRemove, crashed := [], [];
      var k := 0;
      while k < |ps|
        invariant 0 <= k <= |ps| == |orig|
        invariant forall i :: 0 <= i < k ==> ps[i] == StepPlane(orig[i], dir).plane
        invariant forall i :: k <= i < |orig| ==> ps[i] == orig[i]
        invariant toRemove == Departed(orig[..k], dir)
        invariant crashed == CrashedInPass(orig[..k], dir)
        modifies {}
      {
        var st := StepPlane(ps[k], dir);
        assert st == StepPlane(orig[k], dir);
        ps := ps[k := st.plane];
        if st.scheduled {
          crashed := crashed + [st.plane];
        }
        if st.departed {
          toRemove := toRemove + [st.plane];
        }
        DepartedStep(orig, dir, k);
        CrashedInPassStep(orig, dir, k);
        k := k + 1;
      }
      assert orig[..k] == orig;
      assert ps == Advance(orig, dir);
      planes := ps;
      AdvanceKeepsWellFormed(orig, dir);
    }

    /** Remove each queued plane in order, without penalty. */
    method RemoveEach(toRemove: seq<Plane>)
      requires Valid()
      modifies this
      ensures Valid()
      ensures planes == RemoveAll(old(planes), toRemove)
      ensures selectedId == Deselected(old(selectedId), toRemove)
      ensures score == old(score)
    {
      ghost var orig, sel := planes, selectedId;
      var j := 0;
      while j < |toRemove|
        invariant 0 <= j <= |toRemove|
        invariant Valid()
        invariant planes == RemoveAll(orig, toRemove[..j])
        invariant selectedId == Deselected(sel, toRemove[..j])
        invariant score == old(score)
      {
        RemovePlane(toRemove[j], false);
        RemoveAllStep(orig, toRemove, j);
        DeselectedStep(sel, toRemove, j);
        j := j + 1;
      }
      assert toRemove[..j] == toRemove;
    }

    /**
     * The spawn retry loop: draw a candidate on the edge, and stop once it is
     * clear of every plane or the eleventh attempt has been made.
     */
    method PickSpawnPoint(edge: Edge, draw: nat -> Draw) returns (c: Candidate, attempts: nat)
      ensures SpawnAccepted(planes, edge, draw, attempts)
      ensures c == Place(edge, draw(attempts - 1))
    {
      attempts := 0;
      while true
        invariant attempts < MaxSpawnAttempts
        invariant forall k: nat :: k < attempts ==> !Clear(planes, Place(edge, draw(k)))
        decreases MaxSpawnAttempts - attempts
      {
        attempts := attempts + 1;
        c := Place(edge, draw(attempts - 1));
        if Clear(planes, c) || attempts > 10 {
          break;
        }
      }
    }

    /**
     * Spawn a plane at the chosen edge, with the heading normalised to
     * [0, 360), and append it to the list. The speed, altitude, fuel, callsign
     * and id are the values the source draws at random.
     */
    method SpawnPlane(edge: Edge, draw: nat -> Draw, callsign: string, speed: real,
                      altitude: int, fuel: real, id: int) returns (p: Plane, attempts: nat)
      requires Valid()
      requires 200.0 <= speed <= 600.0 && altitude in {2000, 3000, 4000, 5000}
      requires 40.0 <= fuel <= 100.0 && MinId <= id <= MaxId
      modifies this
      ensures Valid()
      ensures SpawnAccepted(old(planes), edge, draw, attempts)
      ensures var c := Place(edge, draw(attempts - 1));
              p == NewPlane(callsign, c.x, c.y, Mod360(c.heading), speed, altitude, fuel, id)
      ensures planes == old(planes) + [p]
      ensures score == old(score) && selectedId == old(selectedId)
    {
      var c;
      c, attempts := PickSpawnPoint(edge, draw);
      p := NewPlane(callsign, c.x, c.y, Mod360(c.heading), speed, altitude, fuel, id);
      planes := planes + [p];
    }
  }
}
